=== FILE: README.md ===
# Exploranium GR-100 reader core, in Dafny

This project models the byte-level core of the Exploranium GR-100 control
program. The program talks to a GR-100 gamma dosimeter over a serial line.
The model covers:

- `BaseReader.readLine`: all-or-nothing assembly of fixed-length frames from
  `InputStream.read()`.
- The three log dumps: `dumpDiagnostic`, `dumpAlarms` and `dumpDose`. Each one
  writes a command byte and reads a handshake byte and a prologue frame. It
  then reads 16-byte frames up to a sentinel of sixteen `0xAA` bytes and routes
  each frame on its tag byte to a `parse*` field extractor.
- The `parse*` extractors (`parseA`, `parseD`, `parseP`, `parseS`, `parseB`,
  `parseW` and `parseT`). They read little-endian two's-complement fields
  through `ByteBuffer`.
- `liveStream`: up to 100 polls. Each poll sums three byte-pair counters with
  Java's signed-byte arithmetic and prints integer counts per second and per
  minute.
- `CircularBuffer<T>`: the constructor, `add` and `getAll`.

The device side is a finite sequence of `read()` results (`Frames.Input`).
Each result is an octet, or -1 for end of stream. An exhausted sequence keeps
answering -1. A dump is a function from that sequence to a `Dumps.Dump`
value, which holds:

- the command byte written;
- whether the handshake was acknowledged;
- the prologue date;
- the records and unknown frames it prints, in order;
- the remaining input, or the failure that ended the dump.

The live stream is a function to a `Live.LiveRun` value: the command bytes
written, the printed samples, and how the stream ended.

Java's integer semantics are written out in `JavaInts`:

- the signed `byte`;
- `short` and `int` narrowing and overflow;
- little-endian `getShort` and `getInt`, with `putShort` and `putInt` as
  their inverses;
- `/` rounding toward zero (section 15.17.2 of the Java Language
  Specification).

The model follows the code where the code and the evident intent differ. In
particular:

- A wrong handshake byte in a dump only prints a message; the dump goes on.
- The prologue frame is never compared with the sentinel.
- Live counters are assembled from unmasked signed bytes.
- `60 * (counts * 1000)` is computed in 32-bit `int`.

The two places where this is evidently a bug are listed under Findings. There,
a corrected definition with its intended property stands next to the
as-written one.

`CircularBuffer` is modelled as an immutable value. `Add` returns the next
state and `GetAll` is a function of the state, so `getAll` leaves `objects`,
`index` and `count` unchanged by construction. `Valid` is the invariant that
the constructor establishes and `add` preserves.

Files:

- `java_ints.dfy` (module `JavaInts`)
- `frames.dfy` (`Frames`)
- `records.dfy` (`Records`)
- `dumps.dfy` (`Dumps`)
- `live.dfy` (`Live`)
- `circular_buffer.dfy` (`CircularBuffer`)
- `wrappers.dfy` (`Wrappers`)

## Model

| member | source | states |
|---|---|---|
| JavaInts.SignedByte | src/main/java/net/shipilev/exploranium/BaseReader.java:286 | The Java byte that holds an octet lies in -128..127, equals the octet modulo 256, and is negative exactly when the octet's top bit is set. |
| JavaInts.SignedByteRoundTrip | src/main/java/net/shipilev/exploranium/BaseReader.java:286 | Every byte value survives the trip to an octet on the wire and back. |
| JavaInts.Wrap32 | src/main/java/net/shipilev/exploranium/BaseReader.java:217 | Java `int` arithmetic: the result is in the int range, congruent modulo 2^32 to the exact value, and equal to it when that fits. |
| JavaInts.GetShort | src/main/java/net/shipilev/exploranium/BaseReader.java:232 | A little-endian `getShort` is a signed 16-bit value. It is negative exactly when the high byte's top bit is set. It equals low + 256·high, less 65536 when negative. |
| JavaInts.GetInt | src/main/java/net/shipilev/exploranium/BaseReader.java:231 | A little-endian `getInt` is a signed 32-bit value. It is negative exactly when byte 3's top bit is set. It equals the unsigned four-byte value, less 2^32 when negative. |
| JavaInts.ShortRoundTrip | src/main/java/net/shipilev/exploranium/BaseReader.java:241-242 | `getShort` of what `putShort` wrote returns the same short. |
| JavaInts.ShortBytesRoundTrip | src/main/java/net/shipilev/exploranium/BaseReader.java:232 | `putShort` of what `getShort` read reproduces the two bytes. |
| JavaInts.IntRoundTrip | src/main/java/net/shipilev/exploranium/BaseReader.java:222-223 | `getInt` of what `putInt` wrote returns the same int. |
| JavaInts.IntBytesRoundTrip | src/main/java/net/shipilev/exploranium/BaseReader.java:231 | `putInt` of what `getInt` read reproduces the four bytes. |
| JavaInts.IntAdd | src/main/java/net/shipilev/exploranium/BaseReader.java:214 | Java `int` `+`: the sum as a 32-bit int, congruent to the exact sum modulo 2^32 and equal to it whenever it fits. |
| JavaInts.IntMul | src/main/java/net/shipilev/exploranium/BaseReader.java:217 | Java `int` `*`: the product as a 32-bit int, congruent to the exact product modulo 2^32 and equal to it whenever it fits. |
| JavaInts.ShiftLeft8 | src/main/java/net/shipilev/exploranium/BaseReader.java:211-213 | Java `x << 8` on an int: 256·x as a 32-bit int, congruent to it modulo 2^32 and equal to it for every x below 2^23 in magnitude. |
| JavaInts.TruncDiv | src/main/java/net/shipilev/exploranium/BaseReader.java:217 | Java `/`: the quotient is zero or has the sign of the dividend times the divisor, and is never larger in magnitude than the dividend. `TruncDivRounds` pins it down exactly. |
| JavaInts.TruncDivRounds | src/main/java/net/shipilev/exploranium/BaseReader.java:217 | Java `/` rounds toward zero: the remainder is smaller than the divisor in magnitude and is zero or has the dividend's sign. |
| JavaInts.TruncDivNonnegative | src/main/java/net/shipilev/exploranium/BaseReader.java:217 | For a nonnegative dividend and a positive divisor, Java `/` agrees with floor division. |
| Frames.Read | src/main/java/net/shipilev/exploranium/BaseReader.java:282 | One `in.read()`: on an exhausted stream it answers -1 and consumes nothing. Otherwise it answers the next value and leaves exactly the values after it. |
| Frames.ReadLine | src/main/java/net/shipilev/exploranium/BaseReader.java:279-289 | `readLine(in, n)` succeeds exactly when none of the next n reads answers -1. It then returns exactly those n octets and leaves the rest of the stream. Otherwise it fails with an IOException, and no partial frame is ever returned. |
| Frames.ReadLineOfWire | src/main/java/net/shipilev/exploranium/BaseReader.java:279-289 | Reading n octets off a stream that starts with n octets returns them and leaves the stream after them. |
| Records.StampAt | src/main/java/net/shipilev/exploranium/BaseReader.java:225 | A timestamp is six signed bytes, with the year equal to 2000 plus the first. Each field fits a Java byte, and the field bytes written back are exactly bytes `at`..`at`+5, in the order year, month, day, hour, minute, second. |
| Records.Tag | src/main/java/net/shipilev/exploranium/BaseReader.java:93 | `bbb.get(15)`: the signed byte at offset 15, equal to that octet when it is below 0x80 and negative exactly when its top bit is set (also lines 142 and 184). |
| Records.PrologueDate | src/main/java/net/shipilev/exploranium/BaseReader.java:87 | The prologue date is bytes 4..9 read as signed bytes, with year 2000 plus byte 4 (also lines 136 and 178). Its fields written back are exactly bytes 4..9. |
| Records.Decode | src/main/java/net/shipilev/exploranium/BaseReader.java:221-277 | The record kind follows the tag byte at offset 15: `P/S/B/W/T` give a reset record of the matching kind, `A` an alarm, `D` a dose, and any other tag an unrecognised frame with its raw bytes. Known records carry the timestamp in bytes 0..5. |
| Records.DecodeEncode | src/main/java/net/shipilev/exploranium/BaseReader.java:221-277 | Decoding the frame that carries any representable record returns that record, whatever the filler bytes. Alarms read int32 at 6 and 10, doses int32 at 6 and int16 at 10, and resets int16 at 6 and 8. |
| Records.EncodeDecode | src/main/java/net/shipilev/exploranium/BaseReader.java:221-277 | Every decoded record is representable. Writing it back over its frame reproduces the frame, so each field is read at exactly its own offsets. |
| Records.VoltageCurrentIndependent | src/main/java/net/shipilev/exploranium/BaseReader.java:239-277 | Voltage depends only on bytes 6-7 and current only on bytes 8-9. Frames that differ only in bytes 6-7 agree on current, time and kind. |
| Records.AlarmAndDoseSigns | src/main/java/net/shipilev/exploranium/BaseReader.java:221-237 | The alarm peaks, the dose and the elapsed seconds are signed. Each is negative exactly when the top bit of its most significant byte is set. |
| Dumps.Command | src/main/java/net/shipilev/exploranium/BaseReader.java:163 | The dose dump writes 0x79. The diagnostic and alarm dumps write 0x50 (lines 72 and 121). |
| Dumps.Report | src/main/java/net/shipilev/exploranium/BaseReader.java:93-190 | Diagnostic view: decodes P/S/B/W/T, silently skips A, reports any other tag as unknown. Alarm view: decodes A, skips P/S/B/W/T, reports the rest as unknown. Dose view: decodes D, reports everything else as unknown. A frame whose decoded record is of the view's own kind is always reported as exactly that record. |
| Dumps.ReadRecords | src/main/java/net/shipilev/exploranium/BaseReader.java:90-115 | The record loop reports only records of its view. A normal end has consumed at least the 16-byte sentinel, and only a short read makes it fail. |
| Dumps.RunDump | src/main/java/net/shipilev/exploranium/BaseReader.java:69-116 | One command byte is written. The dump is acknowledged exactly when the first answer is 0xAA. It starts exactly when a full prologue frame follows, and a missing prologue means no records and a short-read failure. |
| Dumps.PhaseReadsFramesInOrder | src/main/java/net/shipilev/exploranium/BaseReader.java:90-115 | Non-sentinel frames followed by the sentinel are reported frame by frame, in order. The sentinel is consumed, never decoded, and the loop stops right after it. |
| Dumps.PhaseFailsOnShortRead | src/main/java/net/shipilev/exploranium/BaseReader.java:90-114 | Non-sentinel frames followed by less than a whole frame: the lines already printed for those frames stay reported, in order, and the loop then fails with the IOException of `readLine` (line 284). |
| Dumps.PhaseEndsAtSentinel | src/main/java/net/shipilev/exploranium/BaseReader.java:80-90 | Conversely, a loop that ends normally has read non-sentinel frames and then the sentinel, and it reported exactly those frames. |
| Dumps.DumpSession | src/main/java/net/shipilev/exploranium/BaseReader.java:85-90 | The first frame after the handshake is the prologue, even when it looks like the sentinel. Only its bytes 4..9 are used, as the date. Whatever the handshake byte, the frames that follow are reported in order. |
| Dumps.DumpFailsOnShortRead | src/main/java/net/shipilev/exploranium/BaseReader.java:86-114 | A dump that reads its prologue and then non-sentinel frames followed by less than a whole frame keeps the prologue date and the lines already printed for those frames, in order, and fails with the IOException of `readLine` (line 284). |
| Dumps.HandshakeDoesNotAbort | src/main/java/net/shipilev/exploranium/BaseReader.java:75-78 | The handshake byte changes nothing but the "Unable to read." message: prologue, records and outcome are the same. |
| Live.Counter | src/main/java/net/shipilev/exploranium/BaseReader.java:211-213 | An as-written counter is the unsigned value minus 256 when the low octet's top bit is set, and minus 65536 when the high octet's is. |
| Live.CounterMatchesIff | src/main/java/net/shipilev/exploranium/BaseReader.java:211-213 | The as-written counter equals the unsigned one exactly when neither octet has its top bit set. |
| Live.CounterSignExtends | src/main/java/net/shipilev/exploranium/BaseReader.java:211 | Counter octets 0x80, 0x00 (128 counts) are read as -128. |
| Live.UnsignedCounter | src/main/java/net/shipilev/exploranium/BaseReader.java:211-213 | The intended counter is the unsigned 16-bit number whose `putShort` bytes are the two octets. |
| Live.Counts | src/main/java/net/shipilev/exploranium/BaseReader.java:214 | The `int` sum of the three counters never overflows and equals their exact sum. |
| Live.IntendedCounts | src/main/java/net/shipilev/exploranium/BaseReader.java:211-214 | The intended total is nonnegative, below 3·65536, and zero exactly when all six counter octets are zero. |
| Live.CountsAgainstIntended | src/main/java/net/shipilev/exploranium/BaseReader.java:211-214 | The printed total never exceeds the intended one. It differs from it by a multiple of 256, and equals it when no counter octet has its top bit set. |
| Live.Shortfall | src/main/java/net/shipilev/exploranium/BaseReader.java:211-213 | Sign extension takes a counter down by 256 times a count that is zero exactly when neither octet has its top bit set. |
| Live.Measure | src/main/java/net/shipilev/exploranium/BaseReader.java:215-217 | A zero elapsed time throws ArithmeticException before anything is printed. Otherwise a sample with the frame's counts is printed. |
| Live.MeasureRates | src/main/java/net/shipilev/exploranium/BaseReader.java:217 | cps is `1000·counts / elapsed`, rounded toward zero, with no overflow. cpm is `60000·counts` wrapped to 32 bits and then divided the same way. |
| Live.IntendedCpm | src/main/java/net/shipilev/exploranium/BaseReader.java:217 | The intended cpm is `60000·counts / elapsed` without overflow. It is nonnegative for nonnegative counts and elapsed time, and within one of the exact quotient. |
| Live.CpmAsWrittenAgrees | src/main/java/net/shipilev/exploranium/BaseReader.java:217 | While `60000·counts` fits an `int`, the printed cpm is the intended one. |
| Live.CpmOverflows | src/main/java/net/shipilev/exploranium/BaseReader.java:217 | 35792 counts over 1000 ms print -2147447 cpm instead of 2147520. |
| Live.Poll | src/main/java/net/shipilev/exploranium/BaseReader.java:197-218 | At most 100 polls, each writing 0x43. Every poll but a refused or failed last one prints a sample, and a completed run prints one sample per remaining poll. |
| Live.LiveStream | src/main/java/net/shipilev/exploranium/BaseReader.java:195-219 | Between 1 and 100 commands, all 0x43. The stream completes exactly when 100 samples were printed. |
| Live.PollStep | src/main/java/net/shipilev/exploranium/BaseReader.java:198-217 | An acknowledged poll with a full frame and nonzero elapsed time writes one command, prints that frame's sample, and hands the stream after the frame to the next poll. |
| Live.PollsInOrder | src/main/java/net/shipilev/exploranium/BaseReader.java:197-218 | A run of acknowledged polls writes one command per poll and prints the frames' samples in input order. It then continues exactly as the later polls would on the rest of the stream. |
| Live.RefusalStops | src/main/java/net/shipilev/exploranium/BaseReader.java:201-205 | A handshake other than 0xAA ends the stream after its command, with no sample, and consumes only that byte. |
| Live.ShortFrameAborts | src/main/java/net/shipilev/exploranium/BaseReader.java:207-208 | An acknowledged poll followed by less than a whole 8-byte frame ends the stream with the IOException of `readLine` (line 284): one command, no sample, and not the normal return of a refusal. |
| Live.ZeroElapsedAborts | src/main/java/net/shipilev/exploranium/BaseReader.java:217 | An acknowledged poll with a full frame but zero elapsed time ends the stream with the ArithmeticException of the division: one command and no sample. |
| Live.LiveStreamCompletes | src/main/java/net/shipilev/exploranium/BaseReader.java:197 | A device that acknowledges all 100 polls gets exactly 100 commands, one sample per frame in order, and nothing more is read. |
| Live.LiveStreamStopsAtRefusal | src/main/java/net/shipilev/exploranium/BaseReader.java:202-204 | After k acknowledged polls, a refusal gives k + 1 commands and the k samples, and the stream stops right after the refused handshake. |
| CircularBuffer.Create | src/main/java/net/shipilev/exploranium/CircularBuffer.java:32-36 | A fresh buffer has `size` empty slots, index -1 and count 0, and returns nothing from `getAll`. |
| CircularBuffer.Add | src/main/java/net/shipilev/exploranium/CircularBuffer.java:38-42 | `add` keeps the invariant. The newest index moves one slot on, wrapping to 0, and that slot holds the new element; all other slots are unchanged. The count never decreases, never exceeds `size`, and grows by one until the ring is full. |
| CircularBuffer.GetAll | src/main/java/net/shipilev/exploranium/CircularBuffer.java:44-60 | `getAll` returns exactly `count` elements. |
| CircularBuffer.RingOrder | src/main/java/net/shipilev/exploranium/CircularBuffer.java:46-58 | Element k of `getAll` is the slot k places after the oldest one: slot 0 before the ring wraps, and the slot after the newest afterwards. |
| CircularBuffer.AddShiftsWindow | src/main/java/net/shipilev/exploranium/CircularBuffer.java:38-60 | `add` appends its element to what `getAll` returns, and drops the oldest one when the buffer was full. |
| CircularBuffer.Replay | src/main/java/net/shipilev/exploranium/CircularBuffer.java:40 | After any sequence of adds the invariant holds and `count` equals min(adds, size). |
| CircularBuffer.ReplayKeepsLatest | src/main/java/net/shipilev/exploranium/CircularBuffer.java:44-60 | After any sequence of adds, `getAll` returns the last min(adds, size) elements added, oldest first. |
| CircularBuffer.ReplayCount | src/main/java/net/shipilev/exploranium/CircularBuffer.java:40 | One more add never lowers the count or takes it past `size`, and raises it by one while the buffer is not full. |
| CircularBuffer.OneAdded | src/test/java/net/shipilev/exploranium/CircularBufferTest.java:30-35 | Capacity 5, adding 1: `getAll` is [1]. |
| CircularBuffer.TwoAdded | src/test/java/net/shipilev/exploranium/CircularBufferTest.java:38-44 | Capacity 5, adding 1, 2: `getAll` is [1, 2]. |
| CircularBuffer.SixAdded | src/test/java/net/shipilev/exploranium/CircularBufferTest.java:47-57 | Capacity 5, adding 1..6: `getAll` is [2, 3, 4, 5, 6]. |
| CircularBuffer.NineAdded | src/test/java/net/shipilev/exploranium/CircularBufferTest.java:60-73 | Capacity 5, adding 1..9: `getAll` is [5, 6, 7, 8, 9]. |

## Left out

- Serial port handling is not modelled, because it is I/O rather than logic:
  - opening the port and setting its baud rate and timeouts in the constructor;
  - flushing;
  - the drain-until-end-of-stream in `close()`.
- An `IOException` thrown by `read()` itself is not modelled. The model keeps only the -1 answer.
- Printing is not modelled; these are left out:
  - the headers, "Unable to read." and "Unable to read from <port>";
  - `printf` formatting;
  - `new Date()`.

  Instead, the models return the values that would be printed.
- Floating-point outputs are not modelled: battery volts `voltage / 100.0` and the dose rate `dose * 3600.0 / time`. The integer fields they are computed from are modelled.
- Live.Poll: `System.currentTimeMillis` is not modelled. The time the frame read takes in poll i is the parameter `elapsed(i)`.
- `Main.java` (an older prototype with different byte handling) and `Options.java` (command-line parsing and port listing) are not part of this model.
- CircularBuffer.Add: requires a capacity of at least one. With capacity 0, Java's `(index + 1) % size` throws ArithmeticException, and the model does not represent that exception.
- CircularBuffer.Create: takes a natural-number capacity. A negative capacity makes the array allocation throw NegativeArraySizeException.
- CircularBuffer.GetAll: requires the state invariant `Valid`. Every buffer built by `Create` and `Add` satisfies it.
- Live.Measure: its own contract states only the failure case and the counts. The two rates are stated by `Live.MeasureRates`.
- Records.Decode: the unknown-frame line prints the tag as a character plus the raw bytes. The model records the tag byte and the raw frame instead.

## Findings

| source | as written | input that shows it | evidently intended | confidence | as-written member | corrected member |
|---|---|---|---|---|---|---|
| src/main/java/net/shipilev/exploranium/BaseReader.java:211-213 | each counter octet is widened as a signed Java byte, with no `& 0xFF` | counter octets 0x80, 0x00 (128 counts) read as -128 | the unsigned little-endian 16-bit counter the device sends | not executed; high | Live.CounterSignExtends | Live.UnsignedCounter |
| src/main/java/net/shipilev/exploranium/BaseReader.java:217 | `60 * (counts * 1000)` is computed in 32-bit `int` before the division by the `long` elapsed time | frame 7F 7F 51 0C 00 00 00 00 (35792 counts) with 1000 ms elapsed prints -2147447 cpm | 2147520 cpm, the product taken without overflow | not executed; medium | Live.CpmOverflows | Live.IntendedCpm |

The stream model (`Live.Poll`) keeps the as-written arithmetic, because that
is what the program prints. The corrected definitions stand next to it:

- `Live.UnsignedCounter` and `Live.IntendedCounts`;
- `Live.IntendedCpm`, with `Live.CpmAsWrittenAgrees` stating the range where
  the two cpm values coincide;
- `Live.CountsAgainstIntended`, stating how the printed total relates to the
  intended one.

=== FILE: circular_buffer.dfy ===
/*
 * `CircularBuffer<T>`: a fixed-capacity ring that keeps the most recent
 * `size` elements added to it. The array, the capacity, the index of the
 * newest slot and the number of filled slots become the fields of an
 * immutable value; `add` returns the next value instead of updating one.
 */
module CircularBuffer {
  import opened Wrappers

  /**
   * The object's state. An array slot that has never been written holds
   * Java's `null`, here `None`; `index` is -1 until the first `add`.
   */
  datatype Buffer<T> = Buffer(objects: seq<Option<T>>, size: nat, index: int, count: int)

  /**
   * What every buffer that the constructor and `add` can produce satisfies:
   * the array has `size` slots, `index` names the newest one (or is -1 when
   * there is none), the first `count` slots are written, and either the ring
   * has not wrapped yet (`count == index + 1`) or it is full.
   */
  predicate Valid<T>(b: Buffer<T>)
  {
    && |b.objects| == b.size
    && -1 <= b.index < b.size
    && 0 <= b.count <= b.size
    && (b.count == b.index + 1 || b.count == b.size)
    && forall k :: 0 <= k < b.count ==> b.objects[k].Some?
  }

  function Min(a: int, b: int): int { if a < b then a else b }

  /** `new CircularBuffer<T>(size)`: `size` empty slots, no newest slot, nothing counted. */
  function Create<T>(size: nat): (b: Buffer<T>)
    ensures Valid(b) && b.size == size
    ensures b.index == -1 && b.count == 0
    ensures forall k :: 0 <= k < size ==> b.objects[k] == None
    ensures GetAll(b) == []
  {
    Buffer(Nulls(size), size, -1, 0)
  }

  function Nulls<T>(n: nat): (r: seq<Option<T>>)
    ensures |r| == n && forall k :: 0 <= k < n ==> r[k] == None
  {
    if n == 0 then [] else Nulls(n - 1) + [None]
  }

  /**
   * `add(obj)`: the slot after the newest one, wrapping at `size`, receives
   * `obj` and becomes the newest; the count grows by one until the ring is
   * full and then stays at `size`. A capacity of zero makes Java's `%`
   * throw, so `add` needs at least one slot.
   */
  function Add<T>(b: Buffer<T>, x: T): (r: Buffer<T>)
    requires Valid(b) && b.size >= 1
    ensures Valid(r) && r.size == b.size
    ensures r.index == if b.index + 1 == b.size then 0 else b.index + 1
    ensures r.objects[r.index] == Some(x)
    ensures forall k :: 0 <= k < r.size && k != r.index ==> r.objects[k] == b.objects[k]
    ensures b.count <= r.count <= r.size
    ensures r.count == Min(b.count + 1, b.size)
  {
    var index := (b.index + 1) % b.size;
    WrapOnce(b.index + 1, b.size);
    var count := if index + 1 > b.count then index + 1 else b.count;
    Buffer(b.objects[index := Some(x)], b.size, index, count)
  }

  /** The slot holding the oldest element: slot 0 before the ring wraps, the one after the newest afterwards. */
  function Oldest<T>(b: Buffer<T>): int
  {
    if b.count < b.size then 0 else b.index + 1
  }

  /** The slot `k` places after the oldest one, going round the ring. */
  function Slot<T>(b: Buffer<T>, k: int): int
  {
    var p := Oldest(b) + k;
    if p < b.size then p else p - b.size
  }

  /**
   * `getAll()`: the `count` filled slots read in ring order, oldest first
   * (see `RingOrder`).
   */
  function GetAll<T>(b: Buffer<T>): (r: seq<T>)
    requires Valid(b)
    ensures |r| == b.count
  {
    var n := b.index + 1;
    if n >= b.count then
      Values(b.objects[..b.count])
    else
      Values(b.objects[n..b.count]) + Values(b.objects[..n])
  }

  /** Element `k` of what `getAll` returns is the one `k` slots after the oldest. */
  lemma RingOrder<T>(b: Buffer<T>, k: int)
    requires Valid(b) && 0 <= k < b.count
    ensures 0 <= Slot(b, k) < b.size && Some(GetAll(b)[k]) == b.objects[Slot(b, k)]
  {
  }

  /** The elements of slots that are all written. */
  function Values<T>(s: seq<Option<T>>): (r: seq<T>)
    requires forall k :: 0 <= k < |s| ==> s[k].Some?
    ensures |r| == |s| && forall k :: 0 <= k < |s| ==> Some(r[k]) == s[k]
  {
    if |s| == 0 then [] else [s[0].value] + Values(s[1..])
  }

  /** `a % m` for an `a` that wraps at most once. */
  lemma WrapOnce(a: int, m: int)
    requires m > 0 && 0 <= a < 2 * m
    ensures a % m == if a < m then a else a - m
  {
    if a >= m {
      assert a == 1 * m + (a - m);
    }
  }

  // ---- What `getAll` returns across an `add` and across a history of adds ----

  /**
   * Adding to a buffer appends the new element to what `getAll` returns,
   * and drops the oldest element when the ring was already full.
   */
  lemma AddShiftsWindow<T>(b: Buffer<T>, x: T)
    requires Valid(b) && b.size >= 1
    ensures GetAll(Add(b, x)) == (if b.count == b.size then GetAll(b)[1..] else GetAll(b)) + [x]
  {
    if b.count < b.size {
      AddWhileFilling(b, x);
    } else {
      AddWhenFull(b, x);
    }
  }

  lemma AddWhileFilling<T>(b: Buffer<T>, x: T)
    requires Valid(b) && b.size >= 1 && b.count < b.size
    ensures GetAll(Add(b, x)) == GetAll(b) + [x]
  {
    var after := GetAll(Add(b, x));
    forall k | 0 <= k < |after| ensures after[k] == (GetAll(b) + [x])[k] {
      FillingElement(b, x, k);
    }
  }

  lemma FillingElement<T>(b: Buffer<T>, x: T, k: int)
    requires Valid(b) && b.size >= 1 && b.count < b.size && 0 <= k <= b.count
    ensures GetAll(Add(b, x))[k] == (GetAll(b) + [x])[k]
  {
    var r := Add(b, x);
    assert r.index == b.count;
    RingOrder(r, k);
    assert Slot(r, k) == k;
    if k < b.count {
      RingOrder(b, k);
      assert Slot(b, k) == k;
    }
  }

  lemma AddWhenFull<T>(b: Buffer<T>, x: T)
    requires Valid(b) && b.size >= 1 && b.count == b.size
    ensures GetAll(Add(b, x)) == GetAll(b)[1..] + [x]
  {
    var after := GetAll(Add(b, x));
    forall k | 0 <= k < |after| ensures after[k] == (GetAll(b)[1..] + [x])[k] {
      if k < b.size - 1 {
        FullElement(b, x, k);
      } else {
        FullNewest(b, x);
      }
    }
  }

  lemma FullElement<T>(b: Buffer<T>, x: T, k: int)
    requires Valid(b) && b.size >= 1 && b.count == b.size && 0 <= k < b.size - 1
    ensures GetAll(Add(b, x))[k] == GetAll(b)[k + 1]
  {
    var r := Add(b, x);
    var j := Slot(b, k + 1);
    assert Slot(r, k) == j && j != r.index;
    assert r.objects[j] == b.objects[j];
    RingOrder(r, k);
    RingOrder(b, k + 1);
  }

  lemma FullNewest<T>(b: Buffer<T>, x: T)
    requires Valid(b) && b.size >= 1 && b.count == b.size
    ensures GetAll(Add(b, x))[b.size - 1] == x
  {
    var r := Add(b, x);
    RingOrder(r, b.size - 1);
    assert Slot(r, b.size - 1) == r.index;
  }

  /** The buffer after adding the elements of `h` in order to a fresh buffer of capacity `size`. */
  function Replay<T>(size: nat, h: seq<T>): (b: Buffer<T>)
    requires size >= 1 || |h| == 0
    ensures Valid(b) && b.size == size
    ensures b.count == Min(|h|, size)
  {
    if |h| == 0 then Create(size) else Add(Replay(size, h[..|h| - 1]), h[|h| - 1])
  }

  /**
   * After any history of adds, `getAll` returns the last `min(adds, size)`
   * elements added, oldest first; before the ring wraps that is all of them.
   */
  lemma {:induction false} ReplayKeepsLatest<T>(size: nat, h: seq<T>)
    requires size >= 1 || |h| == 0
    ensures GetAll(Replay(size, h)) == h[|h| - Min(|h|, size)..]
  {
    if |h| > 0 {
      var p, x := h[..|h| - 1], h[|h| - 1];
      assert h == p + [x];
      ReplayKeepsLatest(size, p);
      var b := Replay(size, p);
      assert Replay(size, h) == Add(b, x);
      WindowStep(b, p, x);
    }
  }

  /** One more add after a history whose window the buffer already holds. */
  lemma WindowStep<T>(b: Buffer<T>, p: seq<T>, x: T)
    requires Valid(b) && b.size >= 1 && b.count == Min(|p|, b.size)
    requires GetAll(b) == p[|p| - b.count..]
    ensures GetAll(Add(b, x)) == (p + [x])[|p| + 1 - Add(b, x).count..]
  {
    AddShiftsWindow(b, x);
    SlideLatest(p, x, b.size, GetAll(b), GetAll(Add(b, x)));
  }

  /** The last `min(n, size)` of a history, extended by one element, as `AddShiftsWindow` extends it. */
  lemma SlideLatest<T>(p: seq<T>, x: T, size: nat, w: seq<T>, w': seq<T>)
    requires size >= 1 && w == p[|p| - Min(|p|, size)..]
    requires w' == (if Min(|p|, size) == size then w[1..] else w) + [x]
    ensures w' == (p + [x])[|p| + 1 - Min(|p| + 1, size)..]
  {
    if |p| >= size {
      SlideWindow(p, x, size);
    } else {
      assert w == p;
    }
  }

  lemma SlideWindow<T>(p: seq<T>, x: T, size: nat)
    requires 1 <= size <= |p|
    ensures p[|p| - size..][1..] + [x] == (p + [x])[|p| + 1 - size..]
  {
  }

  /** The buffer never holds more than `size` elements, and never forgets one before it is full. */
  lemma ReplayCount<T>(size: nat, h: seq<T>, x: T)
    requires size >= 1
    ensures Replay(size, h).count <= Replay(size, h + [x]).count <= size
    ensures |h| < size ==> Replay(size, h + [x]).count == |h| + 1
  {
    assert (h + [x])[..|h|] == h;
  }

  // ---- The four JUnit cases on a buffer of capacity 5 ----

  lemma OneAdded()
    ensures GetAll(Replay(5, [1])) == [1]
  {
    ReplayKeepsLatest(5, [1]);
  }

  lemma TwoAdded()
    ensures GetAll(Replay(5, [1, 2])) == [1, 2]
  {
    ReplayKeepsLatest(5, [1, 2]);
  }

  lemma SixAdded()
    ensures GetAll(Replay(5, [1, 2, 3, 4, 5, 6])) == [2, 3, 4, 5, 6]
  {
    ReplayKeepsLatest(5, [1, 2, 3, 4, 5, 6]);
  }

  lemma NineAdded()
    ensures GetAll(Replay(5, [1, 2, 3, 4, 5, 6, 7, 8, 9])) == [5, 6, 7, 8, 9]
  {
    ReplayKeepsLatest(5, [1, 2, 3, 4, 5, 6, 7, 8, 9]);
  }
}

=== FILE: dumps.dfy ===
/*
 * The three log dumps of `BaseReader`: `dumpDiagnostic`, `dumpAlarms` and
 * `dumpDose`. Each writes one command byte, reads one handshake byte,
 * consumes a prologue frame, then reads 16-byte frames until the stop
 * sentinel, routing each frame on its tag. The printed lines become the
 * list of records the dump reports, in order.
 */
module Dumps {
  import opened JavaInts
  import opened Frames
  import opened Records
  import opened Wrappers

  /** Which of the three dump methods runs. */
  datatype View = Diagnostic | Alarms | DoseLog

  const DiagnosticCommand: Octet := 0x50
  const DoseCommand: Octet := 0x79
  /** Sixteen 0xAA bytes end the frame stream of a dump. */
  const Sentinel: Frame := [0xAA, 0xAA, 0xAA, 0xAA, 0xAA, 0xAA, 0xAA, 0xAA, 0xAA, 0xAA, 0xAA, 0xAA, 0xAA, 0xAA, 0xAA, 0xAA]

  /** What a dump writes to the device (the diagnostic and alarm dumps share their command). */
  function Command(v: View): (c: Octet)
    ensures c == 0x79 <==> v == DoseLog
    ensures c == 0x50 <==> v != DoseLog
  {
    if v == DoseLog then DoseCommand else DiagnosticCommand
  }

  /** The records a view may report: its own kind, and frames it does not recognise. */
  predicate InView(v: View, rec: Record)
  {
    match v
    case Diagnostic => rec.Reset? || rec.Unrecognised?
    case Alarms => rec.Alarm? || rec.Unrecognised?
    case DoseLog => rec.Dose? || rec.Unrecognised?
  }

  /**
   * The lines one non-sentinel frame adds to a dump: its record when the
   * view decodes that tag, nothing when the view omits it, and an
   * "Unknown operation code" echo of the raw frame otherwise.
   */
  function Report(v: View, f: Frame): (r: seq<Record>)
    ensures |r| <= 1
    ensures forall rec :: rec in r ==> InView(v, rec)
    ensures forall rec :: rec in r ==> rec == Decode(f) || rec == Unrecognised(Tag(f), f)
    ensures v == Diagnostic ==> (r == [] <==> Tag(f) == TagAlarm)
    ensures v == Alarms ==> (r == [] <==> IsResetTag(Tag(f)))
    ensures v == DoseLog ==> r != []
    ensures r != [] && !r[0].Unrecognised? ==> r[0] == Decode(f)
    ensures InView(v, Decode(f)) && !Decode(f).Unrecognised? ==> r == [Decode(f)]
  {
    var rec := Decode(f);
    var unknown := Unrecognised(Tag(f), f);
    match v
    case Diagnostic =>
      if rec.Reset? then [rec] else if rec.Alarm? then [] else [unknown]
    case Alarms =>
      if rec.Alarm? then [rec] else if rec.Reset? then [] else [unknown]
    case DoseLog =>
      if rec.Dose? then [rec] else [unknown]
  }

  /** The lines a sequence of frames adds, frame by frame in order. */
  function ReportAll(v: View, fs: seq<Frame>): (r: seq<Record>)
    ensures |r| <= |fs|
    ensures forall rec :: rec in r ==> InView(v, rec)
  {
    if |fs| == 0 then [] else Report(v, fs[0]) + ReportAll(v, fs[1..])
  }

  /** Frames laid end to end on the wire. */
  function Concat(fs: seq<Frame>): (r: seq<Octet>)
    ensures |r| == FrameSize * |fs|
  {
    if |fs| == 0 then [] else fs[0] + Concat(fs[1..])
  }

  /**
   * The `while (!Arrays.equals(buf = readLine(commIn, 16), stop))` loop:
   * the records it reports and either the input after the sentinel or the
   * failure that ended it.
   */
  function ReadRecords(v: View, input: Input): (r: (seq<Record>, Result<Input>))
    ensures forall rec :: rec in r.0 ==> InView(v, rec)
    ensures r.1.Success? ==> |r.1.value| + FrameSize <= |input| && IsSuffix(r.1.value, input)
    ensures r.1.Failure? ==> r.1.error == ShortRead
    decreases |input|
  {
    match ReadLine(input, FrameSize)
    case Failure(e) => ([], Failure(e))
    case Success((line, rest)) =>
      if line == Sentinel then
        ([], Success(rest))
      else
        var (more, outcome) := ReadRecords(v, rest);
        if outcome.Success? then
          SuffixOfSuffix(outcome.value, rest, input);
          (Report(v, line) + more, outcome)
        else
          (Report(v, line) + more, outcome)
  }

  /** `s` is what remains of `t` once a prefix has been consumed. */
  predicate IsSuffix(s: Input, t: Input)
  {
    |s| <= |t| && s == t[|t| - |s|..]
  }

  lemma SuffixOfSuffix(s: Input, t: Input, u: Input)
    requires IsSuffix(s, t) && IsSuffix(t, u)
    ensures IsSuffix(s, u)
  {
    assert u[|u| - |s|..] == u[|u| - |t|..][|t| - |s|..];
  }

  /** The observable effect of one dump. */
  datatype Dump = Dump(
    command: Octet,            // the single byte written
    acknowledged: bool,        // false: "Unable to read." was printed, and the dump went on
    started: Option<Timestamp>, // the prologue's date, once the prologue frame was read
    records: seq<Record>,      // the record and unknown-frame lines, in input order
    outcome: Result<Input>)    // the input after the sentinel, or the failure that ended the dump

  /** One run of `dumpDiagnostic`, `dumpAlarms` or `dumpDose` against the device's answers. */
  function RunDump(v: View, input: Input): (d: Dump)
    ensures d.command == Command(v)
    ensures d.acknowledged <==> |input| > 0 && input[0] == Ack
    ensures d.started.Some? <==> Available(Read(input).1, FrameSize)
    ensures d.started.None? ==> d.records == [] && d.outcome == Failure(ShortRead)
    ensures forall rec :: rec in d.records ==> InView(v, rec)
  {
    var (h, afterAck) := Read(input);
    match ReadLine(afterAck, FrameSize)
    case Failure(e) => Dump(Command(v), h == Ack, None, [], Failure(e))
    case Success((prologue, rest)) =>
      var (records, outcome) := ReadRecords(v, rest);
      Dump(Command(v), h == Ack, Some(PrologueDate(prologue)), records, outcome)
  }

  // ---- Properties relating the dumps to the frames on the wire ----

  lemma WireAppend(a: seq<Octet>, b: seq<Octet>)
    ensures Wire(a + b) == Wire(a) + Wire(b)
  {
  }

  /**
   * A phase whose frames are `fs` (none of them the sentinel) followed by
   * the sentinel reports exactly `fs`'s lines in order and stops right
   * after the sentinel, which is consumed and never decoded.
   */
  lemma {:induction false} PhaseReadsFramesInOrder(v: View, fs: seq<Frame>, rest: Input)
    requires forall k :: 0 <= k < |fs| ==> fs[k] != Sentinel
    ensures ReadRecords(v, Wire(Concat(fs) + Sentinel) + rest) == (ReportAll(v, fs), Success(rest))
  {
    if |fs| == 0 {
      assert Concat(fs) + Sentinel == Sentinel;
      ReadLineOfWire(Sentinel, rest);
    } else {
      var tail := Concat(fs[1..]) + Sentinel;
      assert Concat(fs) + Sentinel == fs[0] + tail;
      WireAppend(fs[0], tail);
      assert Wire(Concat(fs) + Sentinel) + rest == Wire(fs[0]) + (Wire(tail) + rest);
      ReadLineOfWire(fs[0], Wire(tail) + rest);
      PhaseReadsFramesInOrder(v, fs[1..], rest);
    }
  }

  /**
   * A phase whose frames `fs` (none of them the sentinel) are followed by
   * less than a whole frame keeps the lines already reported for `fs`, in
   * order, and then fails with the IOException of `readLine`.
   */
  lemma {:induction false} PhaseFailsOnShortRead(v: View, fs: seq<Frame>, tail: Input)
    requires forall k :: 0 <= k < |fs| ==> fs[k] != Sentinel
    requires !Available(tail, FrameSize)
    ensures ReadRecords(v, Wire(Concat(fs)) + tail) == (ReportAll(v, fs), Failure(ShortRead))
  {
    if |fs| == 0 {
      assert Wire(Concat(fs)) + tail == tail;
    } else {
      var more := Concat(fs[1..]);
      assert Concat(fs) == fs[0] + more;
      WireAppend(fs[0], more);
      assert Wire(Concat(fs)) + tail == Wire(fs[0]) + (Wire(more) + tail);
      ReadLineOfWire(fs[0], Wire(more) + tail);
      PhaseFailsOnShortRead(v, fs[1..], tail);
    }
  }

  /**
   * Conversely, a phase that ends normally has read some frames, none the
   * sentinel, then the sentinel, and reported exactly those frames.
   */
  lemma {:induction false} PhaseEndsAtSentinel(v: View, input: Input) returns (fs: seq<Frame>)
    requires ReadRecords(v, input).1.Success?
    ensures forall k :: 0 <= k < |fs| ==> fs[k] != Sentinel
    ensures input == Wire(Concat(fs) + Sentinel) + ReadRecords(v, input).1.value
    ensures ReadRecords(v, input).0 == ReportAll(v, fs)
    decreases |input|
  {
    var r := ReadLine(input, FrameSize);
    var line, rest := r.value.0, r.value.1;
    var frame: Frame := line;
    assert input == Wire(line) + rest;
    if line == Sentinel {
      fs := [];
      assert Concat(fs) + Sentinel == Sentinel;
    } else {
      assert ReadRecords(v, input) == (Report(v, frame) + ReadRecords(v, rest).0, ReadRecords(v, rest).1);
      var more := PhaseEndsAtSentinel(v, rest);
      fs := [frame] + more;
      ConsFrames(frame, more, rest, ReadRecords(v, rest).1.value);
      assert ReportAll(v, fs) == Report(v, frame) + ReportAll(v, more) by {
        assert fs[1..] == more;
      }
    }
  }

  lemma ConsFrames(frame: Frame, more: seq<Frame>, rest: Input, after: Input)
    requires rest == Wire(Concat(more) + Sentinel) + after
    ensures Wire(frame) + rest == Wire(Concat([frame] + more) + Sentinel) + after
  {
    var fs := [frame] + more;
    assert fs[1..] == more;
    assert Concat(fs) + Sentinel == frame + (Concat(more) + Sentinel);
    WireAppend(frame, Concat(more) + Sentinel);
  }

  /**
   * A whole dump session: whatever the handshake byte (a wrong one is only
   * reported), the first frame is taken as the prologue even when it looks
   * like the sentinel, only its bytes 4..9 are used, and the phase that
   * follows reports its frames in order.
   */
  lemma {:induction false} DumpSession(v: View, h: ReadValue, prologue: Frame, fs: seq<Frame>, rest: Input)
    requires forall k :: 0 <= k < |fs| ==> fs[k] != Sentinel
    ensures RunDump(v, [h] + Wire(prologue + Concat(fs) + Sentinel) + rest)
         == Dump(Command(v), h == Ack, Some(PrologueDate(prologue)), ReportAll(v, fs), Success(rest))
  {
    var tail := Wire(Concat(fs) + Sentinel) + rest;
    WireAppend(prologue, Concat(fs) + Sentinel);
    assert prologue + Concat(fs) + Sentinel == prologue + (Concat(fs) + Sentinel);
    var input := [h] + Wire(prologue + Concat(fs) + Sentinel) + rest;
    assert Read(input).1 == Wire(prologue) + tail;
    ReadLineOfWire(prologue, tail);
    PhaseReadsFramesInOrder(v, fs, rest);
  }

  /**
   * A dump whose frames after the prologue are cut short: the prologue's
   * date and the lines already printed for the frames before the short
   * read stay reported, in order, and the dump fails with the IOException
   * of `readLine`.
   */
  lemma {:induction false} DumpFailsOnShortRead(v: View, h: ReadValue, prologue: Frame, fs: seq<Frame>, tail: Input)
    requires forall k :: 0 <= k < |fs| ==> fs[k] != Sentinel
    requires !Available(tail, FrameSize)
    ensures RunDump(v, [h] + Wire(prologue + Concat(fs)) + tail)
         == Dump(Command(v), h == Ack, Some(PrologueDate(prologue)), ReportAll(v, fs), Failure(ShortRead))
  {
    var after := Wire(Concat(fs)) + tail;
    WireAppend(prologue, Concat(fs));
    var input := [h] + Wire(prologue + Concat(fs)) + tail;
    assert Read(input).1 == Wire(prologue) + after;
    ReadLineOfWire(prologue, after);
    PhaseFailsOnShortRead(v, fs, tail);
  }

  /** The handshake byte decides only what is printed: the rest of the dump is the same. */
  lemma HandshakeDoesNotAbort(v: View, h1: ReadValue, h2: ReadValue, input: Input)
    ensures RunDump(v, [h1] + input).started == RunDump(v, [h2] + input).started
    ensures RunDump(v, [h1] + input).records == RunDump(v, [h2] + input).records
    ensures RunDump(v, [h1] + input).outcome == RunDump(v, [h2] + input).outcome
  {
    assert ([h1] + input)[1..] == input;
    assert ([h2] + input)[1..] == input;
  }
}

=== FILE: frames.dfy ===
/*
 * The device side of the serial link, seen through `InputStream.read()`,
 * and `BaseReader.readLine`, which assembles fixed-length frames from it.
 */
module Frames {
  import opened JavaInts

  /**
   * What one `read()` call yields: an octet, or -1 for end of stream (the
   * serial driver also answers -1 when its receive timeout lapses, so more
   * octets may follow a -1).
   */
  type ReadValue = x: int | -1 <= x < 256

  /** The answers the device will give to successive `read()` calls. */
  type Input = seq<ReadValue>

  const EndOfStream: ReadValue := -1

  /** The handshake byte the device answers when it accepts a command. */
  const Ack: Octet := 0xAA

  /** The failures the reader can run into (each surfaces as a Java exception). */
  datatype Error =
    | ShortRead      // readLine met -1 and threw IOException
    | DivisionByZero // integer `/` by zero threw ArithmeticException

  datatype Result<T> = Success(value: T) | Failure(error: Error)

  /** One `read()` call: the value it answers and the input left afterwards. */
  function Read(input: Input): (r: (ReadValue, Input))
    ensures |input| == 0 ==> r.0 == EndOfStream && r.1 == []
    ensures |input| > 0 ==> r.0 == input[0] && [r.0] + r.1 == input
  {
    if |input| == 0 then (EndOfStream, input) else (input[0], input[1..])
  }

  /** True when none of the first `count` reads would answer -1. */
  predicate Available(input: Input, count: nat)
  {
    count <= |input| && forall k :: 0 <= k < count ==> input[k] != EndOfStream
  }

  /**
   * `readLine(in, count)`: `count` reads, each octet kept as the low 8 bits
   * of what `read()` answered; the first -1 aborts the whole frame, so a
   * frame is returned complete or not at all.
   */
  function ReadLine(input: Input, count: nat): (r: Result<(seq<Octet>, Input)>)
    ensures r.Success? <==> Available(input, count)
    ensures r.Success? ==> |r.value.0| == count && r.value.0 == input[..count]
    ensures r.Success? ==> r.value.1 == input[count..]
    ensures r.Failure? ==> r.error == ShortRead
  {
    if count == 0 then
      Success(([], input))
    else
      var (b, rest) := Read(input);
      if b == EndOfStream then
        Failure(ShortRead)
      else
        match ReadLine(rest, count - 1)
        case Failure(e) => Failure(e)
        case Success((line, after)) => Success(([b] + line, after))
  }

  /**
   * The octets on the wire, as the successive answers of `read()`. The
   * values are unchanged; the function exists only to convert a sequence
   * of octets to the wider `Input` element type.
   */
  function Wire(octets: seq<Octet>): (r: Input)
    ensures |r| == |octets|
    ensures forall k :: 0 <= k < |r| ==> r[k] == octets[k]
  {
    octets
  }

  /** Reading `|line|` octets off a stream that starts with them yields exactly them. */
  lemma {:induction false} ReadLineOfWire(line: seq<Octet>, rest: Input)
    ensures ReadLine(Wire(line) + rest, |line|) == Success((line, rest))
  {
    var input := Wire(line) + rest;
    assert Available(input, |line|);
    assert input[..|line|] == line;
    assert input[|line|..] == rest;
  }
}

=== FILE: java_ints.dfy ===
/*
 * Java's primitive integer semantics as the GR-100 reader relies on them:
 * the signed `byte` that `(byte) read` produces, the two's-complement
 * narrowing of `short` and `int`, the little-endian `ByteBuffer.getShort`
 * and `getInt` accessors (and their `put` counterparts as a reference
 * encoding), and integer division that rounds toward zero.
 */
module JavaInts {

  /** One octet on the serial line, as `InputStream.read()` yields it when data arrives. */
  type Octet = b: int | 0 <= b < 256

  predicate InByte(x: int) { -0x80 <= x < 0x80 }
  predicate InShort(x: int) { -0x8000 <= x < 0x8000 }
  predicate InInt(x: int) { -0x8000_0000 <= x < 0x8000_0000 }

  function Abs(x: int): nat { if x < 0 then -x else x }

  /** The Java `byte` that holds octet `b`: its value as a signed two's-complement number. */
  function SignedByte(b: Octet): (r: int)
    ensures InByte(r)
    ensures (r - b) % 0x100 == 0
    ensures r < 0 <==> b >= 0x80
  {
    if b < 0x80 then b else b - 0x100
  }

  /** The octet that carries `x` on the wire: its low 8 bits. */
  function OctetOf(x: int): (b: Octet)
    ensures (x - b) % 0x100 == 0
    ensures 0 <= x < 0x100 ==> b == x
  {
    x % 0x100
  }

  /** The `(short)` narrowing conversion: keep the low 16 bits, read them as signed. */
  function Wrap16(x: int): (r: int)
    ensures InShort(r)
    ensures (r - x) % 0x1_0000 == 0
    ensures InShort(x) ==> r == x
  {
    (x + 0x8000) % 0x1_0000 - 0x8000
  }

  /** The `(int)` narrowing conversion, which is also how `int` `+` and `*` overflow. */
  function Wrap32(x: int): (r: int)
    ensures InInt(r)
    ensures (r - x) % 0x1_0000_0000 == 0
    ensures InInt(x) ==> r == x
  {
    (x + 0x8000_0000) % 0x1_0000_0000 - 0x8000_0000
  }

  /** Java `int` addition: the exact sum when it fits, otherwise the sum wrapped modulo 2^32. */
  function IntAdd(a: int, b: int): (r: int)
    ensures InInt(r)
    ensures (r - (a + b)) % 0x1_0000_0000 == 0
    ensures InInt(a + b) ==> r == a + b
  {
    Wrap32(a + b)
  }

  /** Java `int` multiplication: the exact product when it fits, otherwise wrapped modulo 2^32. */
  function IntMul(a: int, b: int): (r: int)
    ensures InInt(r)
    ensures (r - a * b) % 0x1_0000_0000 == 0
    ensures InInt(a * b) ==> r == a * b
  {
    Wrap32(a * b)
  }

  /** Java `x << 8` on an `int`: multiplication by 256, keeping the low 32 bits. */
  function ShiftLeft8(x: int): (r: int)
    ensures InInt(r)
    ensures (r - 0x100 * x) % 0x1_0000_0000 == 0
    ensures -0x80_0000 <= x < 0x80_0000 ==> r == 0x100 * x
  {
    Wrap32(x * 0x100)
  }

  /** `ByteBuffer.getShort(i)` on a LITTLE_ENDIAN buffer. */
  function GetShort(buf: seq<Octet>, i: nat): (r: int)
    requires i + 2 <= |buf|
    ensures InShort(r)
    ensures r < 0 <==> buf[i + 1] >= 0x80
    ensures r >= 0 ==> r == buf[i] as int + 0x100 * buf[i + 1] as int
    ensures r < 0 ==> r == buf[i] as int + 0x100 * buf[i + 1] as int - 0x1_0000
  {
    Wrap16(buf[i] as int + 0x100 * buf[i + 1] as int)
  }

  /** `ByteBuffer.getInt(i)` on a LITTLE_ENDIAN buffer. */
  function GetInt(buf: seq<Octet>, i: nat): (r: int)
    requires i + 4 <= |buf|
    ensures InInt(r)
    ensures r < 0 <==> buf[i + 3] >= 0x80
    ensures r >= 0 ==> r == Unsigned32(buf, i)
    ensures r < 0 ==> r == Unsigned32(buf, i) - 0x1_0000_0000
  {
    Wrap32(Unsigned32(buf, i))
  }

  /** The four octets at `i` read as an unsigned little-endian number. */
  function Unsigned32(buf: seq<Octet>, i: nat): (u: int)
    requires i + 4 <= |buf|
    ensures 0 <= u < 0x1_0000_0000
    ensures u >= 0x8000_0000 <==> buf[i + 3] >= 0x80
  {
    buf[i] as int + 0x100 * buf[i + 1] as int + 0x1_0000 * buf[i + 2] as int + 0x100_0000 * buf[i + 3] as int
  }

  /** `ByteBuffer.putShort(v)` on a LITTLE_ENDIAN buffer: the two octets it writes. */
  function PutShort(v: int): (r: seq<Octet>)
    requires InShort(v)
    ensures |r| == 2
  {
    var u := v % 0x1_0000;
    [u % 0x100, u / 0x100]
  }

  /** `ByteBuffer.putInt(v)` on a LITTLE_ENDIAN buffer: the four octets it writes. */
  function PutInt(v: int): (r: seq<Octet>)
    requires InInt(v)
    ensures |r| == 4
  {
    var u := v % 0x1_0000_0000;
    [u % 0x100, (u / 0x100) % 0x100, (u / 0x1_0000) % 0x100, u / 0x100_0000]
  }

  /**
   * Java's `/` on `int` and `long`: the quotient rounded toward zero, so
   * that the remainder `a - q * b` is smaller than the divisor and carries
   * the sign of the dividend (section 15.17.2 of the Java Language
   * Specification). A zero divisor throws ArithmeticException; callers
   * model that case themselves.
   */
  function TruncDiv(a: int, b: int): (q: int)
    requires b != 0
    ensures q == 0 || (q < 0 <==> (a < 0) != (b < 0))
    ensures Abs(q) <= Abs(a)
  {
    QuotientAtMost(Abs(a), Abs(b));
    var m := Abs(a) / Abs(b);
    if (a < 0) == (b < 0) then m else -m
  }

  lemma QuotientAtMost(a: nat, b: nat)
    requires b >= 1
    ensures a / b <= a
  {
    var m, r := a / b, a % b;
    assert a == m * b + r;
    assert m * b >= m * 1;
  }

  /** `TruncDiv` rounds toward zero: its remainder is below the divisor and has the dividend's sign. */
  lemma TruncDivRounds(a: int, b: int)
    requires b != 0
    ensures Abs(a - TruncDiv(a, b) * b) < Abs(b)
    ensures a - TruncDiv(a, b) * b == 0 || (a - TruncDiv(a, b) * b < 0 <==> a < 0)
  {
    var A, B: int := Abs(a), Abs(b);
    var m := A / B;
    var r := A % B;
    assert A == m * B + r && 0 <= r < B;
    var q := TruncDiv(a, b);
    SignedProduct(m, B);
    if a >= 0 {
      assert q * b == m * B;
      assert a - q * b == r;
    } else {
      assert q * b == -(m * B);
      assert a - q * b == -r;
    }
  }

  /** On a nonnegative dividend and a positive divisor it agrees with Euclidean division. */
  lemma TruncDivNonnegative(a: int, b: int)
    requires a >= 0 && b > 0
    ensures TruncDiv(a, b) == a / b
  {
  }

  lemma SignedProduct(m: int, B: int)
    ensures (-m) * (-B) == m * B
    ensures (-m) * B == -(m * B)
    ensures m * (-B) == -(m * B)
  {
  }

  // Round trips between the byte-level accessors and their encoders.

  lemma SignedByteRoundTrip(x: int)
    requires InByte(x)
    ensures SignedByte(OctetOf(x)) == x
  {
  }

  lemma OctetRoundTrip(b: Octet)
    ensures OctetOf(SignedByte(b)) == b
  {
  }

  lemma SplitOctets16(u: int)
    requires 0 <= u < 0x1_0000
    ensures u == u % 0x100 + 0x100 * (u / 0x100)
    ensures 0 <= u / 0x100 < 0x100
  {
  }

  /** Reading back what `putShort` wrote gives the same short. */
  lemma {:induction false} ShortRoundTrip(v: int)
    requires InShort(v)
    ensures GetShort(PutShort(v), 0) == v
  {
    var u := v % 0x1_0000;
    SplitOctets16(u);
    var bs := PutShort(v);
    assert bs[0] as int + 0x100 * bs[1] as int == u;
  }

  /** Writing back what `getShort` read reproduces the two octets. */
  lemma {:induction false} ShortBytesRoundTrip(buf: seq<Octet>, i: nat)
    requires i + 2 <= |buf|
    ensures PutShort(GetShort(buf, i)) == buf[i..i + 2]
  {
    var lo, hi: int := buf[i], buf[i + 1];
    var u := lo + 0x100 * hi;
    assert GetShort(buf, i) % 0x1_0000 == u;
    DivModOf(u, 0x100, hi, lo);
  }

  lemma DivModOf(x: int, d: int, q: int, r: int)
    requires d > 0 && 0 <= r < d && x == q * d + r
    ensures x / d == q && x % d == r
  {
    var q', r' := x / d, x % d;
    assert (q' - q) * d == r - r';
    if q' > q {
      MulAtLeast(q' - q, d);
    } else if q' < q {
      MulAtLeast(q - q', d);
    }
  }

  lemma MulAtLeast(k: int, d: int)
    requires k >= 1 && d > 0
    ensures k * d >= d
  {
  }

  /** Reading back what `putInt` wrote gives the same int. */
  lemma {:induction false} IntRoundTrip(v: int)
    requires InInt(v)
    ensures GetInt(PutInt(v), 0) == v
  {
    var u := v % 0x1_0000_0000;
    var bs := PutInt(v);
    var u1 := u / 0x100;
    var u2 := u1 / 0x100;
    var u3 := u2 / 0x100;
    assert u == bs[0] + 0x100 * u1;
    assert u1 == bs[1] + 0x100 * u2;
    assert u2 == bs[2] + 0x100 * u3;
    assert u / 0x1_0000 == u2 by { DivDiv(u, 0x100, 0x100); }
    assert u / 0x100_0000 == u3 by { DivDiv(u, 0x100, 0x100); DivDiv(u, 0x1_0000, 0x100); }
    assert bs[3] == u3;
    assert Unsigned32(bs, 0) == u;
  }

  lemma DivDiv(x: int, a: int, b: int)
    requires x >= 0 && a > 0 && b > 0
    ensures x / a / b == x / (a * b)
  {
    var q1, r1 := x / a, x % a;
    var q, r2 := q1 / b, q1 % b;
    assert x == q1 * a + r1 && 0 <= r1 < a;
    assert q1 == q * b + r2 && 0 <= r2 < b;
    Regroup(q, b, r2, a);
    assert x == q * (a * b) + (r2 * a + r1);
    RemainderBound(r2, a, b);
    DivModOf(x, a * b, q, r2 * a + r1);
  }

  lemma Regroup(q: int, b: int, r: int, a: int)
    ensures (q * b + r) * a == q * (a * b) + r * a
  {
  }

  lemma RemainderBound(r2: int, a: int, b: int)
    requires 0 <= r2 < b && a > 0
    ensures 0 <= r2 * a && r2 * a + a <= a * b
  {
    assert (r2 + 1) * a <= b * a;
  }

  /** Writing back what `getInt` read reproduces the four octets. */
  lemma {:induction false} IntBytesRoundTrip(buf: seq<Octet>, i: nat)
    requires i + 4 <= |buf|
    ensures PutInt(GetInt(buf, i)) == buf[i..i + 4]
  {
    var b0, b1, b2, b3: int := buf[i], buf[i + 1], buf[i + 2], buf[i + 3];
    var u := Unsigned32(buf, i);
    assert GetInt(buf, i) % 0x1_0000_0000 == u;
    var u1 := b1 + 0x100 * b2 + 0x1_0000 * b3;
    var u2 := b2 + 0x100 * b3;
    DivModOf(u, 0x100, u1, b0);
    DivModOf(u1, 0x100, u2, b1);
    DivModOf(u2, 0x100, b3, b2);
    DivDiv(u, 0x100, 0x100);
    DivDiv(u, 0x1_0000, 0x100);
    var bs := PutInt(GetInt(buf, i));
    assert bs == [b0, b1, b2, b3];
  }
}

=== FILE: live.dfy ===
/*
 * `BaseReader.liveStream`: up to 100 polls, each writing 0x43, reading the
 * handshake, then an 8-byte frame of three counters, from which the counts,
 * counts per second and counts per minute are printed. The time the frame
 * read took is a parameter: `elapsed(i)` is what `time2 - time1` measures
 * around the read of poll `i`.
 */
module Live {
  import opened JavaInts
  import opened Frames

  const LiveCommand: Octet := 0x43
  const MaxPolls: nat := 100
  const LiveFrameSize: nat := 8

  /**
   * `buf[2k] + (buf[2k + 1] << 8)` as written: both octets are widened as
   * signed Java bytes, without `& 0xFF`, so a low octet of 0x80 or more
   * subtracts 256 and a high octet of 0x80 or more subtracts 65536 from
   * the unsigned little-endian value.
   */
  function Counter(lo: Octet, hi: Octet): (c: int)
    ensures -0x8080 <= c <= 0x7F7F
    ensures c == UnsignedCounter(lo, hi) - (if lo >= 0x80 then 0x100 else 0)
                                         - (if hi >= 0x80 then 0x1_0000 else 0)
  {
    IntAdd(SignedByte(lo), ShiftLeft8(SignedByte(hi)))
  }

  /**
   * The counter the device sends: an unsigned little-endian 16-bit number,
   * the two octets `putShort` would write for it.
   */
  function UnsignedCounter(lo: Octet, hi: Octet): (c: int)
    ensures 0 <= c < 0x1_0000
    ensures PutShort(Wrap16(c)) == [lo, hi]
  {
    ShortBytesRoundTrip([lo, hi], 0);
    lo as int + 0x100 * hi as int
  }

  /** The as-written counter equals the device's value exactly when neither octet has its top bit set. */
  lemma CounterMatchesIff(lo: Octet, hi: Octet)
    ensures Counter(lo, hi) == UnsignedCounter(lo, hi) <==> lo < 0x80 && hi < 0x80
  {
  }

  /** A low octet of 0x80 reads as -128 counts instead of 128. */
  lemma CounterSignExtends()
    ensures Counter(0x80, 0x00) == -128
    ensures UnsignedCounter(0x80, 0x00) == 128
  {
  }

  /** `c1 + c2 + c3`: the Java `int` sum never overflows. */
  function Counts(buf: seq<Octet>): (n: int)
    requires |buf| == LiveFrameSize
    ensures n == Counter(buf[0], buf[1]) + Counter(buf[2], buf[3]) + Counter(buf[4], buf[5])
    ensures -3 * 0x8080 <= n <= 3 * 0x7F7F
  {
    IntAdd(IntAdd(Counter(buf[0], buf[1]), Counter(buf[2], buf[3])), Counter(buf[4], buf[5]))
  }

  /** The intended total: the three counters read as the unsigned numbers the device sends. */
  function IntendedCounts(buf: seq<Octet>): (n: int)
    requires |buf| == LiveFrameSize
    ensures 0 <= n < 3 * 0x1_0000
    ensures n == 0 <==> forall k :: 0 <= k < 6 ==> buf[k] == 0
  {
    UnsignedCounterZero(buf[0], buf[1]);
    UnsignedCounterZero(buf[2], buf[3]);
    UnsignedCounterZero(buf[4], buf[5]);
    UnsignedCounter(buf[0], buf[1]) + UnsignedCounter(buf[2], buf[3]) + UnsignedCounter(buf[4], buf[5])
  }

  lemma UnsignedCounterZero(lo: Octet, hi: Octet)
    ensures UnsignedCounter(lo, hi) == 0 <==> lo == 0 && hi == 0
  {
  }

  /**
   * The printed total is the intended one when no counter octet has its top
   * bit set, and falls short of it by a multiple of 256 otherwise.
   */
  lemma CountsAgainstIntended(buf: seq<Octet>)
    requires |buf| == LiveFrameSize
    ensures (forall k :: 0 <= k < 6 ==> buf[k] < 0x80) ==> Counts(buf) == IntendedCounts(buf)
    ensures Counts(buf) <= IntendedCounts(buf)
    ensures (IntendedCounts(buf) - Counts(buf)) % 0x100 == 0
  {
    var m := Shortfall(buf[0], buf[1]) + Shortfall(buf[2], buf[3]) + Shortfall(buf[4], buf[5]);
    assert IntendedCounts(buf) - Counts(buf) == 0x100 * m;
    DivModOf(0x100 * m, 0x100, m, 0);
  }

  /** How many 256s the sign extension of a counter's two octets takes off. */
  function Shortfall(lo: Octet, hi: Octet): (m: nat)
    ensures UnsignedCounter(lo, hi) - Counter(lo, hi) == 0x100 * m
    ensures m == 0 <==> lo < 0x80 && hi < 0x80
  {
    (if lo >= 0x80 then 1 else 0) + (if hi >= 0x80 then 0x100 else 0)
  }

  /** One printed line of the live stream. */
  datatype Sample = Sample(counts: int, cps: int, cpm: int)

  /**
   * The values `printf` is given for one frame: `counts`,
   * `(counts * 1000) / elapsed` and `60 * (counts * 1000) / elapsed`, the
   * products in `int` arithmetic, the quotients rounded toward zero, and a
   * zero `elapsed` throwing before anything is printed.
   */
  function Measure(buf: seq<Octet>, elapsed: int): (r: Result<Sample>)
    requires |buf| == LiveFrameSize
    ensures r.Failure? <==> elapsed == 0
    ensures r.Failure? ==> r.error == DivisionByZero
    ensures r.Success? ==> r.value.counts == Counts(buf)
  {
    var counts := Counts(buf);
    var scaled := IntMul(counts, 1000);
    if elapsed == 0 then
      Failure(DivisionByZero)
    else
      Success(Sample(counts, TruncDiv(scaled, elapsed), TruncDiv(IntMul(60, scaled), elapsed)))
  }

  /**
   * The rates printed for a frame: `counts * 1000` never overflows, while
   * `60 * (counts * 1000)` is the product `60000 * counts` wrapped to 32 bits.
   */
  lemma MeasureRates(buf: seq<Octet>, elapsed: int)
    requires |buf| == LiveFrameSize && elapsed != 0
    ensures Measure(buf, elapsed).value.cps == TruncDiv(1000 * Counts(buf), elapsed)
    ensures Measure(buf, elapsed).value.cpm == TruncDiv(Wrap32(60000 * Counts(buf)), elapsed)
  {
    ScaledCounts(Counts(buf));
  }

  /** `counts * 1000` fits an `int`, and `60 * (counts * 1000)` is `60000 * counts` wrapped. */
  lemma ScaledCounts(counts: int)
    requires -3 * 0x8080 <= counts <= 3 * 0x7F7F
    ensures IntMul(counts, 1000) == 1000 * counts
    ensures IntMul(60, IntMul(counts, 1000)) == Wrap32(60000 * counts)
  {
    assert -0x8000_0000 <= counts * 1000 < 0x8000_0000;
    assert IntMul(counts, 1000) == counts * 1000;
    assert 60 * (counts * 1000) == 60000 * counts;
  }

  /** The intended counts per minute: `60000 * counts / elapsed` without 32-bit overflow. */
  function IntendedCpm(counts: int, elapsed: int): (cpm: int)
    requires elapsed != 0
    ensures counts >= 0 && elapsed > 0 ==> cpm >= 0
    ensures Abs(60000 * counts - cpm * elapsed) < Abs(elapsed)
  {
    var product := 60000 * counts;
    TruncDivRounds(product, elapsed);
    TruncDiv(product, elapsed)
  }

  /** While `60000 * counts` fits an `int`, the printed rate is the intended one. */
  lemma CpmAsWrittenAgrees(buf: seq<Octet>, elapsed: int)
    requires |buf| == LiveFrameSize && elapsed != 0
    requires InInt(60000 * Counts(buf))
    ensures Measure(buf, elapsed).value.cpm == IntendedCpm(Counts(buf), elapsed)
  {
    MeasureRates(buf, elapsed);
  }

  /**
   * 35792 counts in one poll overflow `60 * (counts * 1000)`: with 1000 ms
   * elapsed the printed rate is negative instead of 2147520 cpm.
   */
  lemma CpmOverflows()
    ensures Counts(OverflowFrame) == 35792
    ensures Measure(OverflowFrame, 1000).value.cpm == -2147447
    ensures IntendedCpm(35792, 1000) == 2147520
  {
    OverflowFrameCounts();
    MeasureRates(OverflowFrame, 1000);
    OverflowArithmetic();
  }

  lemma OverflowArithmetic()
    ensures Wrap32(60000 * 35792) == -2147447296
    ensures TruncDiv(-2147447296, 1000) == -2147447
    ensures TruncDiv(60000 * 35792, 1000) == 2147520
  {
    assert Wrap32(60000 * 35792) == -2147447296;
    assert TruncDiv(-2147447296, 1000) == -2147447;
  }

  /** Counters 32639, 3153 and 0. */
  const OverflowFrame: seq<Octet> := [0x7F, 0x7F, 0x51, 0x0C, 0, 0, 0, 0]

  lemma OverflowFrameCounts()
    ensures Counts(OverflowFrame) == 35792
  {
    OverflowFrameCounters();
    OverflowCounterValues();
  }

  lemma OverflowFrameCounters()
    ensures Counts(OverflowFrame) == Counter(0x7F, 0x7F) + Counter(0x51, 0x0C) + Counter(0, 0)
  {
    var b := OverflowFrame;
    assert b[0] == 0x7F && b[1] == 0x7F && b[2] == 0x51 && b[3] == 0x0C && b[4] == 0 && b[5] == 0;
  }

  lemma OverflowCounterValues()
    ensures Counter(0x7F, 0x7F) == 32639 && Counter(0x51, 0x0C) == 3153 && Counter(0, 0) == 0
  {
  }

  /** How a live stream ended. */
  datatype LiveEnd =
    | Completed(rest: Input)   // all polls done
    | Refused(rest: Input)     // a handshake other than 0xAA: "Unable to read from ...", then return
    | Aborted(error: Error)    // readLine or the division threw

  datatype LiveRun = LiveRun(commands: seq<Octet>, samples: seq<Sample>, end: LiveEnd)

  /** Polls `i`, `i + 1`, ... of the `for` loop. */
  function Poll(i: nat, input: Input, elapsed: nat -> int): (r: LiveRun)
    requires i <= MaxPolls
    ensures |r.commands| <= MaxPolls - i
    ensures forall c :: c in r.commands ==> c == LiveCommand
    ensures |r.commands| == |r.samples| + (if r.end.Completed? then 0 else 1)
    ensures r.end.Completed? ==> |r.samples| == MaxPolls - i
    decreases MaxPolls - i
  {
    if i == MaxPolls then
      LiveRun([], [], Completed(input))
    else
      var (h, afterAck) := Read(input);
      if h != Ack then
        LiveRun([LiveCommand], [], Refused(afterAck))
      else
        match ReadLine(afterAck, LiveFrameSize)
        case Failure(e) => LiveRun([LiveCommand], [], Aborted(e))
        case Success((buf, rest)) =>
          match Measure(buf, elapsed(i))
          case Failure(e) => LiveRun([LiveCommand], [], Aborted(e))
          case Success(s) =>
            var more := Poll(i + 1, rest, elapsed);
            LiveRun([LiveCommand] + more.commands, [s] + more.samples, more.end)
  }

  /** `liveStream()` against the device's answers. */
  function LiveStream(input: Input, elapsed: nat -> int): (r: LiveRun)
    ensures 1 <= |r.commands| <= MaxPolls
    ensures forall c :: c in r.commands ==> c == LiveCommand
    ensures r.end.Completed? <==> |r.samples| == MaxPolls
  {
    Poll(0, input, elapsed)
  }

  /** `n` copies of `c`. */
  function Repeat(c: Octet, n: nat): (r: seq<Octet>)
    ensures |r| == n
  {
    if n == 0 then [] else [c] + Repeat(c, n - 1)
  }

  /** The device's answers to one successful poll: the handshake, then the frame. */
  function Reply(buf: seq<Octet>): Input
  {
    [Ack as ReadValue] + Wire(buf)
  }

  function Replies(bufs: seq<seq<Octet>>): Input
  {
    if |bufs| == 0 then [] else Reply(bufs[0]) + Replies(bufs[1..])
  }

  /** Frames of the live size whose reads all take a nonzero time, from poll `i` on. */
  predicate Acknowledgeable(bufs: seq<seq<Octet>>, i: nat, elapsed: nat -> int)
  {
    && (forall b :: b in bufs ==> |b| == LiveFrameSize)
    && (forall k :: i <= k < i + |bufs| ==> elapsed(k) != 0)
  }

  /** The samples a sequence of acknowledged frames yields, starting at poll `i`. */
  function Samples(bufs: seq<seq<Octet>>, i: nat, elapsed: nat -> int): seq<Sample>
    requires Acknowledgeable(bufs, i, elapsed)
  {
    if |bufs| == 0 then [] else [Measure(bufs[0], elapsed(i)).value] + Samples(bufs[1..], i + 1, elapsed)
  }

  /** One acknowledged poll prints its frame's sample and hands the rest of the stream on. */
  lemma PollStep(i: nat, buf: seq<Octet>, rest: Input, elapsed: nat -> int)
    requires i < MaxPolls && |buf| == LiveFrameSize && elapsed(i) != 0
    ensures var more := Poll(i + 1, rest, elapsed);
      Poll(i, Reply(buf) + rest, elapsed)
        == LiveRun([LiveCommand] + more.commands, [Measure(buf, elapsed(i)).value] + more.samples, more.end)
  {
    var input := Reply(buf) + rest;
    assert input == [Ack as ReadValue] + (Wire(buf) + rest);
    assert Read(input).1 == Wire(buf) + rest;
    ReadLineOfWire(buf, rest);
  }

  /**
   * What a run of acknowledged polls `i`, `i + 1`, ... puts in front of
   * the run `later` that follows them: one command and one sample each.
   */
  function Prepend(bufs: seq<seq<Octet>>, i: nat, elapsed: nat -> int, later: LiveRun): LiveRun
    requires Acknowledgeable(bufs, i, elapsed)
  {
    if |bufs| == 0 then
      later
    else
      var more := Prepend(bufs[1..], i + 1, elapsed, later);
      LiveRun([LiveCommand] + more.commands, [Measure(bufs[0], elapsed(i)).value] + more.samples, more.end)
  }

  /** `Prepend` adds exactly one command per frame and the frames' samples, in order. */
  lemma {:induction false} PrependShape(bufs: seq<seq<Octet>>, i: nat, elapsed: nat -> int, later: LiveRun)
    requires Acknowledgeable(bufs, i, elapsed)
    ensures Prepend(bufs, i, elapsed, later)
         == LiveRun(Repeat(LiveCommand, |bufs|) + later.commands, Samples(bufs, i, elapsed) + later.samples, later.end)
    decreases |bufs|, 1
  {
    if |bufs| == 0 {
      assert Repeat(LiveCommand, 0) + later.commands == later.commands;
      assert Samples(bufs, i, elapsed) + later.samples == later.samples;
    } else {
      PrependFrame(bufs, i, elapsed, later);
    }
  }

  /** The inductive step of `PrependShape`. */
  lemma {:induction false} PrependFrame(bufs: seq<seq<Octet>>, i: nat, elapsed: nat -> int, later: LiveRun)
    requires |bufs| > 0 && Acknowledgeable(bufs, i, elapsed)
    ensures Prepend(bufs, i, elapsed, later)
         == LiveRun(Repeat(LiveCommand, |bufs|) + later.commands, Samples(bufs, i, elapsed) + later.samples, later.end)
    decreases |bufs|, 0
  {
    AcknowledgeableTail(bufs, i, elapsed);
    PrependShape(bufs[1..], i + 1, elapsed, later);
    var s := Measure(bufs[0], elapsed(i)).value;
    var ss := Samples(bufs[1..], i + 1, elapsed);
    assert Samples(bufs, i, elapsed) == [s] + ss;
    assert Repeat(LiveCommand, |bufs|) == [LiveCommand] + Repeat(LiveCommand, |bufs| - 1);
    ShapeStep(LiveCommand, s, Repeat(LiveCommand, |bufs| - 1), ss, later, Prepend(bufs[1..], i + 1, elapsed, later));
  }

  lemma ShapeStep(c: Octet, s: Sample, cs: seq<Octet>, ss: seq<Sample>, later: LiveRun, more: LiveRun)
    requires more == LiveRun(cs + later.commands, ss + later.samples, later.end)
    ensures LiveRun([c] + more.commands, [s] + more.samples, more.end)
         == LiveRun([c] + cs + later.commands, [s] + ss + later.samples, later.end)
  {
    ConsAssoc(c, cs, later.commands);
    ConsAssoc(s, ss, later.samples);
  }

  /**
   * A run of acknowledged polls `i` .. `j - 1` prints one sample per frame,
   * in order, writes one command per poll, and leaves the rest of the
   * stream to the polls from `j` on.
   */
  lemma PollsInOrder(i: nat, j: nat, bufs: seq<seq<Octet>>, rest: Input, elapsed: nat -> int)
    requires j == i + |bufs| <= MaxPolls
    requires Acknowledgeable(bufs, i, elapsed)
    ensures var later := Poll(j, rest, elapsed);
      Poll(i, Replies(bufs) + rest, elapsed)
        == LiveRun(Repeat(LiveCommand, |bufs|) + later.commands, Samples(bufs, i, elapsed) + later.samples, later.end)
  {
    PollsPrepend(i, j, bufs, rest, elapsed);
    PrependShape(bufs, i, elapsed, Poll(j, rest, elapsed));
  }

  /** `PollsInOrder` stated through `Prepend`, by induction on the frames. */
  lemma {:induction false} PollsPrepend(i: nat, j: nat, bufs: seq<seq<Octet>>, rest: Input, elapsed: nat -> int)
    requires j == i + |bufs| <= MaxPolls
    requires Acknowledgeable(bufs, i, elapsed)
    ensures Poll(i, Replies(bufs) + rest, elapsed) == Prepend(bufs, i, elapsed, Poll(j, rest, elapsed))
    decreases |bufs|, 1
  {
    if |bufs| == 0 {
      assert Replies(bufs) + rest == rest;
    } else {
      PollsFrame(i, j, bufs, rest, elapsed);
    }
  }

  /** The inductive step of `PollsPrepend`. */
  lemma {:induction false} PollsFrame(i: nat, j: nat, bufs: seq<seq<Octet>>, rest: Input, elapsed: nat -> int)
    requires |bufs| > 0 && j == i + |bufs| <= MaxPolls
    requires Acknowledgeable(bufs, i, elapsed)
    ensures Poll(i, Replies(bufs) + rest, elapsed) == Prepend(bufs, i, elapsed, Poll(j, rest, elapsed))
    decreases |bufs|, 0
  {
    AcknowledgeableTail(bufs, i, elapsed);
    PollsPrepend(i + 1, j, bufs[1..], rest, elapsed);
    PollsHead(i, j, bufs, rest, elapsed);
  }

  /** One acknowledged poll in front of polls whose run is already known. */
  lemma PollsHead(i: nat, j: nat, bufs: seq<seq<Octet>>, rest: Input, elapsed: nat -> int)
    requires |bufs| > 0 && j == i + |bufs| <= MaxPolls
    requires Acknowledgeable(bufs, i, elapsed) && Acknowledgeable(bufs[1..], i + 1, elapsed)
    requires Poll(i + 1, Replies(bufs[1..]) + rest, elapsed) == Prepend(bufs[1..], i + 1, elapsed, Poll(j, rest, elapsed))
    ensures Poll(i, Replies(bufs) + rest, elapsed) == Prepend(bufs, i, elapsed, Poll(j, rest, elapsed))
  {
    RepliesCons(bufs, rest);
    assert bufs[0] in bufs;
    PollStep(i, bufs[0], Replies(bufs[1..]) + rest, elapsed);
  }

  lemma RepliesCons(bufs: seq<seq<Octet>>, rest: Input)
    requires |bufs| > 0
    ensures Replies(bufs) + rest == Reply(bufs[0]) + (Replies(bufs[1..]) + rest)
  {
    assert Replies(bufs) == Reply(bufs[0]) + Replies(bufs[1..]);
  }

  lemma ConsAssoc<T>(x: T, a: seq<T>, b: seq<T>)
    ensures [x] + (a + b) == ([x] + a) + b
  {
  }

  lemma AcknowledgeableTail(bufs: seq<seq<Octet>>, i: nat, elapsed: nat -> int)
    requires |bufs| > 0 && Acknowledgeable(bufs, i, elapsed)
    ensures Acknowledgeable(bufs[1..], i + 1, elapsed)
  {
    forall b | b in bufs[1..] ensures |b| == LiveFrameSize {
      assert b in bufs;
    }
  }

  /** The first handshake other than 0xAA ends the stream after one command and no sample. */
  lemma RefusalStops(i: nat, h: ReadValue, rest: Input, elapsed: nat -> int)
    requires i < MaxPolls && h != Ack
    ensures Poll(i, [h] + rest, elapsed) == LiveRun([LiveCommand], [], Refused(rest))
  {
    assert ([h] + rest)[1..] == rest;
  }

  /**
   * An acknowledged poll whose frame is cut short ends the stream with the
   * IOException of `readLine`, not with the normal return of a refusal.
   */
  lemma ShortFrameAborts(i: nat, tail: Input, elapsed: nat -> int)
    requires i < MaxPolls && !Available(tail, LiveFrameSize)
    ensures Poll(i, [Ack as ReadValue] + tail, elapsed) == LiveRun([LiveCommand], [], Aborted(ShortRead))
  {
    assert ([Ack as ReadValue] + tail)[1..] == tail;
  }

  /**
   * An acknowledged poll with a full frame but no time elapsed ends the
   * stream with the ArithmeticException of the rate division.
   */
  lemma ZeroElapsedAborts(i: nat, buf: seq<Octet>, rest: Input, elapsed: nat -> int)
    requires i < MaxPolls && |buf| == LiveFrameSize && elapsed(i) == 0
    ensures Poll(i, Reply(buf) + rest, elapsed) == LiveRun([LiveCommand], [], Aborted(DivisionByZero))
  {
    var input := Reply(buf) + rest;
    assert input[0] == Ack && input[1..] == Wire(buf) + rest;
    ReadLineOfWire(buf, rest);
  }

  /**
   * A device that acknowledges all 100 polls with well-formed frames, each
   * read taking some time, gets exactly 100 commands and prints one sample
   * per frame in order; the stream is read no further.
   */
  lemma LiveStreamCompletes(bufs: seq<seq<Octet>>, rest: Input, elapsed: nat -> int)
    requires |bufs| == MaxPolls && Acknowledgeable(bufs, 0, elapsed)
    ensures LiveStream(Replies(bufs) + rest, elapsed)
         == LiveRun(Repeat(LiveCommand, MaxPolls), Samples(bufs, 0, elapsed), Completed(rest))
  {
    PollsInOrder(0, MaxPolls, bufs, rest, elapsed);
    var later := Poll(MaxPolls, rest, elapsed);
    assert later == LiveRun([], [], Completed(rest));
    assert Repeat(LiveCommand, MaxPolls) + later.commands == Repeat(LiveCommand, MaxPolls);
    assert Samples(bufs, 0, elapsed) + later.samples == Samples(bufs, 0, elapsed);
  }

  /**
   * A device that acknowledges the first `|bufs|` polls and then answers
   * anything but 0xAA gets one more command and no more samples, and the
   * stream stops right after that handshake byte.
   */
  lemma LiveStreamStopsAtRefusal(bufs: seq<seq<Octet>>, h: ReadValue, rest: Input, elapsed: nat -> int)
    requires |bufs| < MaxPolls && Acknowledgeable(bufs, 0, elapsed) && h != Ack
    ensures LiveStream(Replies(bufs) + ([h] + rest), elapsed)
         == LiveRun(Repeat(LiveCommand, |bufs| + 1), Samples(bufs, 0, elapsed), Refused(rest))
  {
    PollsInOrder(0, |bufs|, bufs, [h] + rest, elapsed);
    RefusalStops(|bufs|, h, rest, elapsed);
    RepeatSnoc(LiveCommand, |bufs|);
    assert Samples(bufs, 0, elapsed) + [] == Samples(bufs, 0, elapsed);
  }

  lemma {:induction false} RepeatSnoc(c: Octet, n: nat)
    ensures Repeat(c, n) + [c] == Repeat(c, n + 1)
  {
    if n > 0 {
      RepeatSnoc(c, n - 1);
      assert Repeat(c, n) + [c] == [c] + (Repeat(c, n - 1) + [c]);
    }
  }
}

=== FILE: records.dfy ===
/*
 * The 16-byte GR-100 log frame and the records `BaseReader` extracts from
 * it in `parseP`/`parseS`/`parseB`/`parseW`/`parseT`, `parseA` and `parseD`.
 * Byte 15 is the tag; bytes 0..5 are the timestamp; the remaining fields
 * are little-endian two's-complement numbers read through `ByteBuffer`.
 */
module Records {
  import opened JavaInts

  const FrameSize: nat := 16
  const TagOffset: nat := 15

  /** One log frame, as `readLine(commIn, 16)` returns it. */
  type Frame = f: seq<Octet> | |f| == FrameSize witness seq(16, _ => 0)

  /** Six consecutive Java bytes read as a date and time; the year is 2000 plus the first. */
  datatype Timestamp = Timestamp(year: int, month: int, day: int, hour: int, minute: int, second: int)

  /** The five record kinds that share the battery-voltage / current layout. */
  datatype ResetKind = PowerOn | SoftwareReset | NewBattery | WatchdogReset | TimeSet

  datatype Record =
    | Reset(kind: ResetKind, time: Timestamp, voltage: int, current: int)
    | Alarm(time: Timestamp, maxGamma: int, maxDose: int)
    | Dose(time: Timestamp, dose: int, seconds: int)
    | Unrecognised(tag: int, raw: Frame)

  const TagPowerOn: int := 'P' as int
  const TagSoftwareReset: int := 'S' as int
  const TagNewBattery: int := 'B' as int
  const TagWatchdogReset: int := 'W' as int
  const TagTimeSet: int := 'T' as int
  const TagAlarm: int := 'A' as int
  const TagDose: int := 'D' as int

  /** `bbb.get(15)`: the tag as the signed byte the `switch` compares against. */
  function Tag(f: Frame): (t: int)
    ensures InByte(t)
    ensures t >= 0 ==> t == f[TagOffset]
    ensures t < 0 <==> f[TagOffset] >= 0x80
  {
    SignedByte(f[TagOffset])
  }

  /** The tag character `BaseReader` routes to each reset kind. */
  function KindTag(k: ResetKind): int
  {
    match k
    case PowerOn => TagPowerOn
    case SoftwareReset => TagSoftwareReset
    case NewBattery => TagNewBattery
    case WatchdogReset => TagWatchdogReset
    case TimeSet => TagTimeSet
  }

  predicate IsResetTag(t: int)
  {
    t in {TagPowerOn, TagSoftwareReset, TagNewBattery, TagWatchdogReset, TagTimeSet}
  }

  predicate IsKnownTag(t: int)
  {
    IsResetTag(t) || t == TagAlarm || t == TagDose
  }

  /** The timestamp in bytes `at`..`at`+5, each a signed Java byte, year = 2000 + first. */
  function StampAt(f: Frame, at: nat): (t: Timestamp)
    requires at + 6 <= FrameSize
    ensures InByte(t.year - 2000) && InByte(t.month) && InByte(t.day)
    ensures InByte(t.hour) && InByte(t.minute) && InByte(t.second)
    ensures StampOctets(t) == f[at..at + 6]
  {
    OctetRoundTrip(f[at]);
    OctetRoundTrip(f[at + 1]);
    OctetRoundTrip(f[at + 2]);
    OctetRoundTrip(f[at + 3]);
    OctetRoundTrip(f[at + 4]);
    OctetRoundTrip(f[at + 5]);
    Timestamp(2000 + SignedByte(f[at]), SignedByte(f[at + 1]), SignedByte(f[at + 2]),
              SignedByte(f[at + 3]), SignedByte(f[at + 4]), SignedByte(f[at + 5]))
  }

  /** The date printed from a prologue frame: bytes 4..9, the year 2000 plus byte 4. */
  function PrologueDate(f: Frame): (d: Timestamp)
    ensures StampFits(d)
    ensures StampOctets(d) == f[4..10]
  {
    StampAt(f, 4)
  }

  /**
   * What the `parse*` method that a frame's tag selects extracts from it.
   * A tag no `parse*` method handles decodes to `Unrecognised`, carrying
   * the raw frame that `BaseReader` echoes.
   */
  function Decode(f: Frame): (r: Record)
    ensures r.Reset? <==> IsResetTag(Tag(f))
    ensures r.Reset? ==> KindTag(r.kind) == Tag(f)
    ensures r.Alarm? <==> Tag(f) == TagAlarm
    ensures r.Dose? <==> Tag(f) == TagDose
    ensures r.Unrecognised? ==> r.raw == f && r.tag == Tag(f)
    ensures !r.Unrecognised? ==> r.time == StampAt(f, 0)
  {
    var t := Tag(f);
    var time := StampAt(f, 0);
    if t == TagAlarm then
      Alarm(time, GetInt(f, 6), GetInt(f, 10))
    else if t == TagDose then
      Dose(time, GetInt(f, 6), GetShort(f, 10))
    else if t == TagPowerOn then
      Reset(PowerOn, time, GetShort(f, 6), GetShort(f, 8))
    else if t == TagSoftwareReset then
      Reset(SoftwareReset, time, GetShort(f, 6), GetShort(f, 8))
    else if t == TagNewBattery then
      Reset(NewBattery, time, GetShort(f, 6), GetShort(f, 8))
    else if t == TagWatchdogReset then
      Reset(WatchdogReset, time, GetShort(f, 6), GetShort(f, 8))
    else if t == TagTimeSet then
      Reset(TimeSet, time, GetShort(f, 6), GetShort(f, 8))
    else
      Unrecognised(t, f)
  }

  // ---- The reference encoding: the frame a device writes for a record ----

  predicate StampFits(t: Timestamp)
  {
    InByte(t.year - 2000) && InByte(t.month) && InByte(t.day)
    && InByte(t.hour) && InByte(t.minute) && InByte(t.second)
  }

  /** Records whose every field fits the width the frame gives it. */
  predicate Fits(rec: Record)
  {
    match rec
    case Reset(_, t, v, c) => StampFits(t) && InShort(v) && InShort(c)
    case Alarm(t, g, d) => StampFits(t) && InInt(g) && InInt(d)
    case Dose(t, d, s) => StampFits(t) && InInt(d) && InShort(s)
    case Unrecognised(tag, raw) => Tag(raw) == tag && !IsKnownTag(tag)
  }

  function StampOctets(t: Timestamp): (r: seq<Octet>)
    ensures |r| == 6
  {
    [OctetOf(t.year - 2000), OctetOf(t.month), OctetOf(t.day),
     OctetOf(t.hour), OctetOf(t.minute), OctetOf(t.second)]
  }

  /**
   * The frame that carries `rec`: its fields written at the offsets the
   * decoder reads, every other byte taken from `base`.
   */
  function Encode(rec: Record, base: Frame): Frame
    requires Fits(rec)
  {
    match rec
    case Reset(k, t, v, c) =>
      StampOctets(t) + PutShort(v) + PutShort(c) + base[10..15] + [OctetOf(KindTag(k))]
    case Alarm(t, g, d) =>
      StampOctets(t) + PutInt(g) + PutInt(d) + base[14..15] + [OctetOf(TagAlarm)]
    case Dose(t, d, s) =>
      StampOctets(t) + PutInt(d) + PutShort(s) + base[12..15] + [OctetOf(TagDose)]
    case Unrecognised(_, raw) => raw
  }

  lemma {:induction false} StampRoundTrip(f: Frame, t: Timestamp)
    requires StampFits(t) && f[..6] == StampOctets(t)
    ensures StampAt(f, 0) == t
  {
    SignedByteRoundTrip(t.year - 2000);
    SignedByteRoundTrip(t.month);
    SignedByteRoundTrip(t.day);
    SignedByteRoundTrip(t.hour);
    SignedByteRoundTrip(t.minute);
    SignedByteRoundTrip(t.second);
    assert f[0] == OctetOf(t.year - 2000) && f[1] == OctetOf(t.month) && f[2] == OctetOf(t.day);
    assert f[3] == OctetOf(t.hour) && f[4] == OctetOf(t.minute) && f[5] == OctetOf(t.second);
  }

  lemma {:induction false} StampOctetsRoundTrip(f: Frame)
    ensures StampOctets(StampAt(f, 0)) == f[..6]
  {
    OctetRoundTrip(f[0]);
    OctetRoundTrip(f[1]);
    OctetRoundTrip(f[2]);
    OctetRoundTrip(f[3]);
    OctetRoundTrip(f[4]);
    OctetRoundTrip(f[5]);
  }

  lemma ShortAt(f: Frame, i: nat, v: int)
    requires InShort(v) && i + 2 <= FrameSize && f[i..i + 2] == PutShort(v)
    ensures GetShort(f, i) == v
  {
    ShortRoundTrip(v);
    assert f[i] == PutShort(v)[0] && f[i + 1] == PutShort(v)[1];
  }

  lemma IntAt(f: Frame, i: nat, v: int)
    requires InInt(v) && i + 4 <= FrameSize && f[i..i + 4] == PutInt(v)
    ensures GetInt(f, i) == v
  {
    IntRoundTrip(v);
    var p := PutInt(v);
    assert f[i] == p[0] && f[i + 1] == p[1] && f[i + 2] == p[2] && f[i + 3] == p[3];
  }

  /** Decoding the frame that carries a record gives the record back, whatever the filler bytes. */
  lemma {:induction false} DecodeEncode(rec: Record, base: Frame)
    requires Fits(rec)
    ensures Decode(Encode(rec, base)) == rec
  {
    match rec
    case Reset(_, _, _, _) => DecodeReset(rec, base);
    case Alarm(_, _, _) => DecodeAlarm(rec, base);
    case Dose(_, _, _) => DecodeDose(rec, base);
    case Unrecognised(_, _) =>
  }

  lemma DecodeReset(rec: Record, base: Frame)
    requires rec.Reset? && Fits(rec)
    ensures Decode(Encode(rec, base)) == rec
  {
    var f := Encode(rec, base);
    assert f[..6] == StampOctets(rec.time);
    StampRoundTrip(f, rec.time);
    assert f[6..8] == PutShort(rec.voltage);
    ShortAt(f, 6, rec.voltage);
    assert f[8..10] == PutShort(rec.current);
    ShortAt(f, 8, rec.current);
    assert f[15] == OctetOf(KindTag(rec.kind));
    SignedByteRoundTrip(KindTag(rec.kind));
  }

  lemma DecodeAlarm(rec: Record, base: Frame)
    requires rec.Alarm? && Fits(rec)
    ensures Decode(Encode(rec, base)) == rec
  {
    var f := Encode(rec, base);
    assert f[..6] == StampOctets(rec.time);
    StampRoundTrip(f, rec.time);
    assert f[6..10] == PutInt(rec.maxGamma);
    IntAt(f, 6, rec.maxGamma);
    assert f[10..14] == PutInt(rec.maxDose);
    IntAt(f, 10, rec.maxDose);
    assert f[15] == OctetOf(TagAlarm);
    SignedByteRoundTrip(TagAlarm);
  }

  lemma DecodeDose(rec: Record, base: Frame)
    requires rec.Dose? && Fits(rec)
    ensures Decode(Encode(rec, base)) == rec
  {
    var f := Encode(rec, base);
    assert f[..6] == StampOctets(rec.time);
    StampRoundTrip(f, rec.time);
    assert f[6..10] == PutInt(rec.dose);
    IntAt(f, 6, rec.dose);
    assert f[10..12] == PutShort(rec.seconds);
    ShortAt(f, 10, rec.seconds);
    assert f[15] == OctetOf(TagDose);
    SignedByteRoundTrip(TagDose);
  }

  /**
   * Every decoded record fits its frame, and re-encoding it over the
   * original frame reproduces that frame: the decoder reads each field at
   * exactly the offsets the encoder writes, and nothing else.
   */
  lemma {:induction false} EncodeDecode(f: Frame)
    ensures Fits(Decode(f))
    ensures Encode(Decode(f), f) == f
  {
    OctetRoundTrip(f[15]);
    match Decode(f)
    case Reset(_, _, _, _) => ResetBytes(f);
    case Alarm(_, _, _) => AlarmBytes(f);
    case Dose(_, _, _) => DoseBytes(f);
    case Unrecognised(_, _) =>
  }

  lemma ResetBytes(f: Frame)
    requires Decode(f).Reset? && OctetOf(SignedByte(f[15])) == f[15]
    ensures Encode(Decode(f), f) == f
  {
    var d := Decode(f);
    StampOctetsRoundTrip(f);
    ShortBytesRoundTrip(f, 6);
    ShortBytesRoundTrip(f, 8);
    assert d == Reset(d.kind, StampAt(f, 0), GetShort(f, 6), GetShort(f, 8));
    assert Encode(d, f) == StampOctets(d.time) + PutShort(d.voltage) + PutShort(d.current) + f[10..15] + [OctetOf(KindTag(d.kind))];
    assert Encode(d, f) == f[..6] + f[6..8] + f[8..10] + f[10..15] + [f[15]];
  }

  lemma AlarmBytes(f: Frame)
    requires Decode(f).Alarm? && OctetOf(SignedByte(f[15])) == f[15]
    ensures Encode(Decode(f), f) == f
  {
    StampOctetsRoundTrip(f);
    IntBytesRoundTrip(f, 6);
    IntBytesRoundTrip(f, 10);
    assert Encode(Decode(f), f) == f[..6] + f[6..10] + f[10..14] + f[14..15] + [f[15]];
  }

  lemma DoseBytes(f: Frame)
    requires Decode(f).Dose? && OctetOf(SignedByte(f[15])) == f[15]
    ensures Encode(Decode(f), f) == f
  {
    var d := Decode(f);
    StampOctetsRoundTrip(f);
    IntBytesRoundTrip(f, 6);
    ShortBytesRoundTrip(f, 10);
    assert d == Dose(StampAt(f, 0), GetInt(f, 6), GetShort(f, 10));
    assert Encode(d, f) == StampOctets(d.time) + PutInt(d.dose) + PutShort(d.seconds) + f[12..15] + [f[15]];
    assert Encode(d, f) == f[..6] + f[6..10] + f[10..12] + f[12..15] + [f[15]];
  }

  /**
   * Battery voltage and current of the `P`/`S`/`B`/`W`/`T` records each
   * depend on their own two bytes only: frames that differ elsewhere agree
   * on voltage, frames that differ only in bytes 6 and 7 agree on all the
   * rest.
   */
  lemma VoltageCurrentIndependent(f: Frame, g: Frame)
    requires IsResetTag(Tag(f)) && Tag(f) == Tag(g)
    ensures f[6..8] == g[6..8] ==> Decode(f).voltage == Decode(g).voltage
    ensures f[8..10] == g[8..10] ==> Decode(f).current == Decode(g).current
    ensures (forall k :: 0 <= k < FrameSize && k != 6 && k != 7 ==> f[k] == g[k]) ==>
      Decode(f).current == Decode(g).current && Decode(f).time == Decode(g).time
      && Decode(f).kind == Decode(g).kind
  {
    if f[6..8] == g[6..8] {
      assert f[6] == g[6] && f[7] == g[7];
    }
    if f[8..10] == g[8..10] {
      assert f[8] == g[8] && f[9] == g[9];
    }
  }

  /**
   * Alarm peaks and dose counters are signed 32-bit values: their sign is
   * the top bit of the last of their four bytes.
   */
  lemma AlarmAndDoseSigns(f: Frame)
    ensures Decode(f).Alarm? ==>
      (Decode(f).maxGamma < 0 <==> f[9] >= 0x80) && (Decode(f).maxDose < 0 <==> f[13] >= 0x80)
    ensures Decode(f).Dose? ==>
      (Decode(f).dose < 0 <==> f[9] >= 0x80) && (Decode(f).seconds < 0 <==> f[11] >= 0x80)
  {
  }
}

=== FILE: wrappers.dfy ===
/** A value that may be absent: a Java reference that may be `null`. */
module Wrappers {
  datatype Option<T> = None | Some(value: T)
}
